=== FILE: README.md ===
# Sign-up validation and partner-response handling of the onboarding screen

The onboarding screen `FirstRunActivity` of the Android client holds a small sign-up flow
inside its UI callbacks. Three pieces of decision logic are lifted out here as pure Dafny
functions over immutable values:

- **Form validation** (`SignUpForm`): the OK button of the sign-up dialog reads eight text
  inputs. It marks each blank field with an error text and calls `registerUser` when the gift
  code is filled in. If all seven validated fields are blank, the phone code, phone number and gift code
  errors use different texts.
- **Registration request** (`RegistrationRequest`): `registerUser` posts a JSON object with seven
  keys to the partner's registration endpoint, with a JSON content type header.
- **Response handling** (`ErrorFormat`, `ErrorClassification`, `ResponseHandling`). The success
  listener checks for a `result` member. The error listener turns the raw error body into a
  fallback text, then picks a reaction through an ordered chain of substring probes. Each
  listener's visible effects are returned as an ordered list of `UiAction` values: dismissing
  the progress dialog, toasts, dialogs and opening the login screen.

`Text` holds Java's `String.contains` (as `Contains`) and an occurrence count. `Wrappers` holds
`Option`.

Points worth noting about the code:

- Blankness is `length() <= 0` with no trimming, so a field of spaces counts as filled.
- The phone code and phone number are always validated.
- The endpoint is `https://api.plusclouds.com/v2/partners/teknosa/register`.
- The Turkish error probes match the JSON-escaped text (`Böyle…`, with a literal backslash),
  not the decoded letters.
- An error body containing `true` gets the success reaction twice when it formats to at least
  102 characters; a shorter one gets it once and then `substring(102)` throws.

## Model

| member | source | states |
|---|---|---|
| SignUpForm.OnPositiveClick | app/src/main/java/com/nextcloud/client/onboarding/FirstRunActivity.java:178-224 | The listener reads eight inputs and drops the default locale. The errors are exactly the blank fields among the seven, and `registerUser` is called iff the gift code is non-blank, with exactly the seven entered values. `DefaultLocaleIgnored` and `SubmittedFormIsPosted` state the rest. |
| SignUpForm.Validate | app/src/main/java/com/nextcloud/client/onboarding/FirstRunActivity.java:187-224 | The fields given an error are exactly the blank ones. If all seven are blank, each error uses the all-blank text; otherwise each uses the per-field text. `registerUser` is called iff the gift code is non-blank, and then with exactly the seven entered values. |
| SignUpForm.CheckEachField | app/src/main/java/com/nextcloud/client/onboarding/FirstRunActivity.java:199-223 | The per-field branch marks every blank field with its per-field text and submits iff the gift code is filled. |
| SignUpForm.MarkBlanks | app/src/main/java/com/nextcloud/client/onboarding/FirstRunActivity.java:200-219 | The field-by-field checks add an error for exactly the blank fields among those checked, and keep earlier errors. |
| SignUpForm.GiftCodeAloneGatesSubmission | app/src/main/java/com/nextcloud/client/onboarding/FirstRunActivity.java:187-222 | Two entries with the same gift code agree on whether registration is submitted, whatever the other six fields hold. |
| SignUpForm.SubmittedFormIsPosted | app/src/main/java/com/nextcloud/client/onboarding/FirstRunActivity.java:218-287 | A form with a gift code is submitted, and the posted JSON object reads back as exactly the seven values typed in. |
| SignUpForm.DefaultLocaleIgnored | app/src/main/java/com/nextcloud/client/onboarding/FirstRunActivity.java:184-222 | The default-locale input never changes the click outcome. |
| SignUpForm.MessageTablesDiffer | app/src/main/java/com/nextcloud/client/onboarding/FirstRunActivity.java:190-219 | The all-blank and per-field texts differ for exactly the phone code, phone number and gift code. |
| RegistrationRequest.Payload | app/src/main/java/com/nextcloud/client/onboarding/FirstRunActivity.java:277-287 | The posted object has exactly the keys name, surname, email, password, cell_phone_code, cell_phone_number and gift_code. `default_locale` is never sent. |
| RegistrationRequest.ReadPayload | app/src/main/java/com/nextcloud/client/onboarding/FirstRunActivity.java:280-287 | Reading a payload back succeeds iff its keys are exactly the seven payload keys. |
| RegistrationRequest.PayloadRoundTrip | app/src/main/java/com/nextcloud/client/onboarding/FirstRunActivity.java:280-287 | Each value is bound to its own key: reading the payload back gives the registration it was built from. |
| RegistrationRequest.PayloadDetermined | app/src/main/java/com/nextcloud/client/onboarding/FirstRunActivity.java:280-287 | Any map that reads back as a registration is exactly that registration's payload. |
| RegistrationRequest.RegisterUser | app/src/main/java/com/nextcloud/client/onboarding/FirstRunActivity.java:274-305 | The request is a POST to the partner URL whose body reads back as the registration. Its only header is `Content-Type: application/json; charset=utf-8`, set at lines 463-466. |
| ErrorFormat.StripStructural | app/src/main/java/com/nextcloud/client/onboarding/FirstRunActivity.java:378 | The result holds no brace, bracket or double quote. Every other character keeps its count. The length shrinks by the number of removed characters. |
| ErrorFormat.ExpandCommas | app/src/main/java/com/nextcloud/client/onboarding/FirstRunActivity.java:379 | The result holds no comma and grows by one character per comma. Each comma adds two line breaks. Every other character keeps its count. |
| ErrorFormat.FallbackMessage | app/src/main/java/com/nextcloud/client/onboarding/FirstRunActivity.java:375-380 | Defined only when the formatted body has at least 102 characters. The result is exactly 102 characters shorter than the formatted body and holds no punctuation or comma. |
| ErrorFormat.FormattedLength | app/src/main/java/com/nextcloud/client/onboarding/FirstRunActivity.java:378-380 | The formatted length is the body length minus the punctuation plus the commas, which gives the `substring(102)` threshold in terms of the raw body. |
| ErrorFormat.StripConcat | app/src/main/java/com/nextcloud/client/onboarding/FirstRunActivity.java:378 | Removing punctuation distributes over concatenation. |
| ErrorFormat.ExpandConcat | app/src/main/java/com/nextcloud/client/onboarding/FirstRunActivity.java:379 | Comma replacement distributes over concatenation. |
| ErrorFormat.StripIdentity | app/src/main/java/com/nextcloud/client/onboarding/FirstRunActivity.java:378 | Text without punctuation is unchanged by the first replacement. |
| ErrorFormat.StripIdempotent | app/src/main/java/com/nextcloud/client/onboarding/FirstRunActivity.java:378 | Applying the first replacement twice equals applying it once. |
| ErrorFormat.ExpandKeepsStructuralFree | app/src/main/java/com/nextcloud/client/onboarding/FirstRunActivity.java:378-379 | Comma replacement introduces no punctuation. |
| ErrorFormat.ReplacementsCommute | app/src/main/java/com/nextcloud/client/onboarding/FirstRunActivity.java:378-379 | The two replacements commute, so their order in the source does not matter. |
| ErrorFormat.CollapseAfterExpand | app/src/main/java/com/nextcloud/client/onboarding/FirstRunActivity.java:379 | On text without line breaks, reading each pair of line breaks back as a comma undoes the replacement. |
| ErrorFormat.CommaIndistinguishableFromBreak | app/src/main/java/com/nextcloud/client/onboarding/FirstRunActivity.java:379 | A comma and two line breaks already in the body format to the same text. |
| ErrorFormat.FallbackDropsPreamble | app/src/main/java/com/nextcloud/client/onboarding/FirstRunActivity.java:380 | If a preamble formats to exactly 102 characters, the fallback text of preamble + rest is the formatted rest. |
| ErrorFormat.FormattedAroundComma | app/src/main/java/com/nextcloud/client/onboarding/FirstRunActivity.java:378-379 | A comma in the body becomes two line breaks between the formatted text before it and after it. |
| ErrorFormat.CommaStraddlesCut | app/src/main/java/com/nextcloud/client/onboarding/FirstRunActivity.java:379-380 | If the text before a comma formats to 101 characters, the cut at 102 falls between the comma's two line breaks, so the dialog text starts with a lone line break. |
| ErrorClassification.Classify | app/src/main/java/com/nextcloud/client/onboarding/FirstRunActivity.java:382-445 | The result is the first kind in the order success, code not found, code used, email taken whose probe occurs in the body; no earlier probe occurs. The result is unrecognised iff no probe occurs. |
| ErrorClassification.TrueOverridesEverything | app/src/main/java/com/nextcloud/client/onboarding/FirstRunActivity.java:382-390 | A body with `true` anywhere is a success, whatever surrounds it. |
| ErrorClassification.KnownErrorWhateverElse | app/src/main/java/com/nextcloud/client/onboarding/FirstRunActivity.java:392-436 | A body without `true` that holds a known error probe is classified as that error or an earlier one in the chain, whatever else it holds. |
| ErrorClassification.DecodedBodyNeverRecognised | app/src/main/java/com/nextcloud/client/onboarding/FirstRunActivity.java:392-411 | A body with no backslash (escapes already decoded) is never classified as a known error. |
| ErrorClassification.ProbeHoldsBackslash | app/src/main/java/com/nextcloud/client/onboarding/FirstRunActivity.java:392-411 | Each known-error probe is escaped text holding a backslash. |
| ResponseHandling.OnResponse | app/src/main/java/com/nextcloud/client/onboarding/FirstRunActivity.java:308-333 | The success listener opens the login screen iff the object has a `result` member. In that case the run has exactly six actions: the dismissal, the `success:` toast, the `response true:` toast, the confirmation toast twice, and then the login screen, opened exactly once. It shows no dialog and no "Parsing error" toast, so the two outcomes of the `try`/`catch` exclude each other. Otherwise its only effect after dismissing progress is a "Parsing error" toast. |
| ResponseHandling.OnErrorResponse | app/src/main/java/com/nextcloud/client/onboarding/FirstRunActivity.java:359-445 | The listener throws iff the formatted body is under 102 characters, whatever the classification. A body with `true` starts with the success reaction. A body without it never opens the login screen, and if it throws, the dismissal is its only action. The per-branch actions of the chain at lines 382-445 (`Reaction`) are covered here and by the lemmas below. |
| ResponseHandling.DisguisedSuccessRunsTwice | app/src/main/java/com/nextcloud/client/onboarding/FirstRunActivity.java:363-390 | For a body with `true` that formats to at least 102 characters, the run is the success reaction, a dismissal, and the success reaction again, so the confirmation toast and the login screen each occur exactly twice. No dialog is shown. A shorter body gets the reaction once and then throws (`ShortSuccessOpensLoginThenThrows`). |
| ResponseHandling.ShortSuccessOpensLoginThenThrows | app/src/main/java/com/nextcloud/client/onboarding/FirstRunActivity.java:363-380 | A body with `true` that formats to under 102 characters opens the login screen once, then throws. |
| ResponseHandling.ErrorBodyShowsOneDialog | app/src/main/java/com/nextcloud/client/onboarding/FirstRunActivity.java:374-445 | A body without `true` shows no toast and never navigates. If the formatted body is under 102 characters, the dismissal is its only action before the throw, so no dialog appears even for a known error. Otherwise it ends in exactly one dialog with the shared title and either the known message or the fallback text. |
| ResponseHandling.UnrecognisedShowsFallback | app/src/main/java/com/nextcloud/client/onboarding/FirstRunActivity.java:437-445 | An unrecognised body's dialog shows the fallback text, which holds no punctuation or comma. |

## Left out

- Activity lifecycle, view binding, the feature slideshow, page-change callbacks,
  `onActivityResult` and account handling: platform plumbing with no decision logic.
- `setSlideshowSize`: layout with floating-point dp-to-pixel conversion.
- The progress dialog's styling and texts in `registerUser` (lines 264-273): rendering only.
  The model keeps only its dismissals.
- `Log.e`/`Log.i` calls: logging has no visible effect.
- The Volley queue and asynchronous delivery: each listener takes its already-delivered
  input as a parameter.
- org.json: a response object is a map from member name to its `getString` text, plus the
  object's own text. Serialising, parsing and `JSONException` on `put` are not modelled;
  `put` never throws for these string values.
- UTF-8 decoding of the error body: bodies are `seq<char>` (`string`). Java counts `length()`
  and `substring` in UTF-16 code units, so the 102 threshold differs for characters outside
  the Basic Multilingual Plane.
- The regex engine: both `replaceAll` calls are modelled directly as a character filter and a
  comma replacement.
- A missing `networkResponse` (lines 356-360 dereference it unchecked): the error listener
  takes the body as a parameter, so a present response is assumed.
- The commented-out `StringRequest` at lines 486-571: dead code.
- Uncaught exception propagation: `OnErrorResponse` records that `substring(102)` threw, with
  the actions performed before it. What the platform does next is not modelled.

=== FILE: error_classification.dfy ===
/**
 The ordered chain of substring probes `onErrorResponse` applies to the raw error body.
 The Turkish probes are matched against the JSON-escaped text as the partner sends it
 (`ö` as six literal characters), not against the decoded letters.
 */
module ErrorClassification {
  import opened Text

  /** The outcome of the chain, in the order the chain tries them. */
  datatype ErrorKind =
    | DisguisedSuccess
    | CodeNotFound
    | CodeAlreadyUsed
    | EmailAlreadyRegistered
    | Unrecognised

  /** The JSON escapes `\u00f6` (ö), `\u0131` (ı) and `\u015f` (ş), six literal characters each. */
  const EscapedO := "\\u00f6"
  const EscapedDotlessI := "\\u0131"
  const EscapedS := "\\u015f"

  const SuccessProbe := "true"
  /** "Böyle bir kod bulunamamı…": no such code. */
  const CodeNotFoundProbe := "B" + EscapedO + "yle bir kod bulunamam" + EscapedDotlessI
  /** "Bu kod daha önceden kullanılmış": the code was used before. */
  const CodeUsedProbe := "Bu kod daha " + EscapedO + "nceden kullan" + EscapedDotlessI + "lm" + EscapedDotlessI + EscapedS
  /** "Bu e-posta adresi ile daha önce hesap yaratılmıştır": an account already exists for the email. */
  const EmailTakenProbe :=
    "Bu e-posta adresi ile daha " + EscapedO + "nce hesap yarat" + EscapedDotlessI + "lm" + EscapedDotlessI
    + EscapedS + "t" + EscapedDotlessI + "r"

  /** The chain's order of precedence. */
  const Precedence: seq<ErrorKind> := [DisguisedSuccess, CodeNotFound, CodeAlreadyUsed, EmailAlreadyRegistered]

  /** The substring whose presence selects a recognised kind. */
  function Probe(k: ErrorKind): string
    requires k != Unrecognised
  {
    match k
    case DisguisedSuccess => SuccessProbe
    case CodeNotFound => CodeNotFoundProbe
    case CodeAlreadyUsed => CodeUsedProbe
    case EmailAlreadyRegistered => EmailTakenProbe
  }

  /** Position of a recognised kind in the chain. */
  function Rank(k: ErrorKind): (n: nat)
    requires k != Unrecognised
    ensures n < |Precedence| && Precedence[n] == k
  {
    match k
    case DisguisedSuccess => 0
    case CodeNotFound => 1
    case CodeAlreadyUsed => 2
    case EmailAlreadyRegistered => 3
  }

  /** The body matches the probe of the kind at position `i` of the chain. */
  predicate MatchesAt(body: string, i: nat)
    requires i < |Precedence|
  {
    Contains(body, Probe(Precedence[i]))
  }

  /**
   The if/else-if chain: the first probe found selects the kind; a body matching none is unrecognised.
   */
  function Classify(body: string): (k: ErrorKind)
    ensures k == Unrecognised <==> forall i :: 0 <= i < |Precedence| ==> !MatchesAt(body, i)
    ensures k != Unrecognised ==> Contains(body, Probe(k))
    ensures k != Unrecognised ==> forall i :: 0 <= i < Rank(k) ==> !MatchesAt(body, i)
  {
    if Contains(body, SuccessProbe) then
      assert MatchesAt(body, 0);
      DisguisedSuccess
    else if Contains(body, CodeNotFoundProbe) then
      assert MatchesAt(body, 1);
      CodeNotFound
    else if Contains(body, CodeUsedProbe) then
      assert MatchesAt(body, 2);
      CodeAlreadyUsed
    else if Contains(body, EmailTakenProbe) then
      assert MatchesAt(body, 3);
      EmailAlreadyRegistered
    else
      assert !MatchesAt(body, 0) && !MatchesAt(body, 1) && !MatchesAt(body, 2) && !MatchesAt(body, 3);
      Unrecognised
  }

  /** A body that mentions `true` anywhere is a success, whatever error text surrounds it. */
  lemma TrueOverridesEverything(before: string, after: string)
    ensures Classify(before + "true" + after) == DisguisedSuccess
  {
    ContainsInRight(before, "true", "true");
    ContainsInLeft(before + "true", after, "true");
  }

  /** A recognised error text is reported whatever else the body holds, unless `true` appears. */
  lemma KnownErrorWhateverElse(k: ErrorKind, before: string, after: string)
    requires k in {CodeNotFound, CodeAlreadyUsed, EmailAlreadyRegistered}
    requires !Contains(before + Probe(k) + after, SuccessProbe)
    ensures Classify(before + Probe(k) + after) in {CodeNotFound, CodeAlreadyUsed, EmailAlreadyRegistered}
    ensures Rank(Classify(before + Probe(k) + after)) <= Rank(k)
  {
    var body := before + Probe(k) + after;
    ContainsInRight(before, Probe(k), Probe(k));
    ContainsInLeft(before + Probe(k), after, Probe(k));
    assert MatchesAt(body, Rank(k));
  }

  /**
   Every recognised error probe holds a backslash, so a body whose escapes were already decoded
   (no backslash at all) is never reported as a recognised error.
   */
  lemma DecodedBodyNeverRecognised(body: string)
    requires '\\' !in body
    ensures Classify(body) in {DisguisedSuccess, Unrecognised}
  {
    var k := Classify(body);
    if k in {CodeNotFound, CodeAlreadyUsed, EmailAlreadyRegistered} {
      ProbeHoldsBackslash(k);
      ContainsElement(body, Probe(k), '\\');
      assert false;
    }
  }

  /** Each recognised error probe is escaped text: it holds a backslash. */
  lemma ProbeHoldsBackslash(k: ErrorKind)
    requires k in {CodeNotFound, CodeAlreadyUsed, EmailAlreadyRegistered}
    ensures '\\' in Probe(k)
  {
    assert EscapedO[0] == '\\';
  }
}

=== FILE: error_format.dfy ===
/**
 The fallback text shown for an unrecognised error body: JSON punctuation removed, each comma
 turned into a paragraph break, and the partner's fixed-length preamble cut off.
 */
module ErrorFormat {
  import opened Text

  /** How many leading characters of the formatted body are dropped (`substring(102)`). */
  const PreambleLength := 102

  /** The character class `[\{\}\[\]"]` of the first `replaceAll`. */
  predicate IsStructural(c: char)
  {
    c == '{' || c == '}' || c == '[' || c == ']' || c == '"'
  }

  function StructuralCount(s: string): nat
  {
    Count(s, '{') + Count(s, '}') + Count(s, '[') + Count(s, ']') + Count(s, '"')
  }

  /** `replaceAll("[\\{\\}\\[\\]\"]", "")`: every brace, bracket and double quote removed. */
  function StripStructural(s: string): (r: string)
    ensures |r| == |s| - StructuralCount(s)
    ensures forall i :: 0 <= i < |r| ==> !IsStructural(r[i])
    ensures forall c :: !IsStructural(c) ==> Count(r, c) == Count(s, c)
  {
    if |s| == 0 then
      []
    else if IsStructural(s[0]) then
      StripStructural(s[1..])
    else
      [s[0]] + StripStructural(s[1..])
  }

  /** `replaceAll(",", "\n\n")`: each comma becomes two line breaks. */
  function ExpandCommas(s: string): (r: string)
    ensures |r| == |s| + Count(s, ',')
    ensures forall i :: 0 <= i < |r| ==> r[i] != ','
    ensures forall c :: c != ',' && c != '\n' ==> Count(r, c) == Count(s, c)
    ensures Count(r, '\n') == Count(s, '\n') + 2 * Count(s, ',')
  {
    if |s| == 0 then
      []
    else if s[0] == ',' then
      "\n\n" + ExpandCommas(s[1..])
    else
      [s[0]] + ExpandCommas(s[1..])
  }

  /** Reads paragraph breaks back as commas: the inverse of `ExpandCommas` on text without line breaks. */
  function CollapseBreaks(r: string): (s: string)
    ensures |s| <= |r|
    decreases |r|
  {
    if |r| == 0 then
      []
    else if |r| >= 2 && r[0] == '\n' && r[1] == '\n' then
      [','] + CollapseBreaks(r[2..])
    else
      [r[0]] + CollapseBreaks(r[1..])
  }

  /** The body after both replacements, before the preamble is cut. */
  function Formatted(body: string): string
  {
    ExpandCommas(StripStructural(body))
  }

  /** `formattedStr.substring(102)`; Java throws when the formatted body is shorter. */
  function FallbackMessage(body: string): (r: string)
    requires |Formatted(body)| >= PreambleLength
    ensures |r| + PreambleLength == |Formatted(body)|
    ensures forall i :: 0 <= i < |r| ==> !IsStructural(r[i]) && r[i] != ','
  {
    var f := Formatted(body);
    assert forall i :: 0 <= i < |f| ==> !IsStructural(f[i]) by {
      ExpandKeepsStructuralFree(StripStructural(body));
    }
    f[PreambleLength..]
  }

  /** The formatted length, from which the `substring(102)` precondition can be read off the raw body. */
  lemma FormattedLength(body: string)
    ensures |Formatted(body)| == |body| - StructuralCount(body) + Count(body, ',')
  {
  }

  /** Stripping works character by character: it distributes over concatenation. */
  lemma {:induction false} StripConcat(a: string, b: string)
    ensures StripStructural(a + b) == StripStructural(a) + StripStructural(b)
    decreases |a|
  {
    if |a| == 0 {
      assert a + b == b;
    } else {
      assert (a + b)[1..] == a[1..] + b;
      StripConcat(a[1..], b);
    }
  }

  /** Comma expansion works character by character: it distributes over concatenation. */
  lemma {:induction false} ExpandConcat(a: string, b: string)
    ensures ExpandCommas(a + b) == ExpandCommas(a) + ExpandCommas(b)
    decreases |a|
  {
    if |a| == 0 {
      assert a + b == b;
    } else {
      assert (a + b)[1..] == a[1..] + b;
      ExpandConcat(a[1..], b);
    }
  }

  /** Text free of punctuation is left as it is by the first replacement. */
  lemma {:induction false} StripIdentity(s: string)
    requires forall i :: 0 <= i < |s| ==> !IsStructural(s[i])
    ensures StripStructural(s) == s
    decreases |s|
  {
    if |s| > 0 {
      StripIdentity(s[1..]);
      assert s == [s[0]] + s[1..];
    }
  }

  /** Applying the first replacement twice changes nothing more. */
  lemma StripIdempotent(s: string)
    ensures StripStructural(StripStructural(s)) == StripStructural(s)
  {
    StripIdentity(StripStructural(s));
  }

  /** Expanding commas never introduces punctuation. */
  lemma {:induction false} ExpandKeepsStructuralFree(s: string)
    requires forall i :: 0 <= i < |s| ==> !IsStructural(s[i])
    ensures forall i :: 0 <= i < |ExpandCommas(s)| ==> !IsStructural(ExpandCommas(s)[i])
    decreases |s|
  {
    if |s| > 0 {
      ExpandKeepsStructuralFree(s[1..]);
    }
  }

  /** The two replacements commute: the order `onErrorResponse` applies them in does not matter. */
  lemma {:induction false} ReplacementsCommute(s: string)
    ensures ExpandCommas(StripStructural(s)) == StripStructural(ExpandCommas(s))
    decreases |s|
  {
    if |s| > 0 {
      ReplacementsCommute(s[1..]);
      var rest := ExpandCommas(s[1..]);
      if s[0] == ',' {
        StripConcat("\n\n", rest);
      } else if IsStructural(s[0]) {
        assert StripStructural([s[0]] + rest) == StripStructural(rest) by {
          StripConcat([s[0]], rest);
        }
      } else {
        StripConcat([s[0]], rest);
        assert StripStructural(s) == [s[0]] + StripStructural(s[1..]);
        ExpandConcat([s[0]], StripStructural(s[1..]));
      }
    }
  }

  /** On text without line breaks, collapsing the breaks recovers the commas exactly. */
  lemma {:induction false} CollapseAfterExpand(s: string)
    requires forall i :: 0 <= i < |s| ==> s[i] != '\n'
    ensures CollapseBreaks(ExpandCommas(s)) == s
    decreases |s|
  {
    if |s| > 0 {
      CollapseAfterExpand(s[1..]);
      var rest := ExpandCommas(s[1..]);
      if s[0] == ',' {
        assert ("\n\n" + rest)[2..] == rest;
      } else {
        assert ([s[0]] + rest)[1..] == rest;
      }
      assert s == [s[0]] + s[1..];
    }
  }

  /** A comma and a paragraph break anywhere in a body format alike, so the fallback text loses that difference. */
  lemma CommaIndistinguishableFromBreak(a: string, b: string)
    ensures Formatted(a + "," + b) == Formatted(a + "\n\n" + b)
  {
    assert StripStructural(",") == ",";
    assert StripStructural("\n\n") == "\n\n";
    assert ExpandCommas(",") == "\n\n";
    assert ExpandCommas("\n\n") == "\n\n";
    StripConcat(a + ",", b);
    StripConcat(a, ",");
    StripConcat(a + "\n\n", b);
    StripConcat(a, "\n\n");
    var sa, sb := StripStructural(a), StripStructural(b);
    ExpandConcat(sa + ",", sb);
    ExpandConcat(sa, ",");
    ExpandConcat(sa + "\n\n", sb);
    ExpandConcat(sa, "\n\n");
  }

  /** Dropping 102 characters removes exactly a preamble whose formatted form is 102 characters long. */
  lemma FallbackDropsPreamble(preamble: string, rest: string)
    requires |Formatted(preamble)| == PreambleLength
    ensures |Formatted(preamble + rest)| >= PreambleLength
    ensures FallbackMessage(preamble + rest) == Formatted(rest)
  {
    StripConcat(preamble, rest);
    ExpandConcat(StripStructural(preamble), StripStructural(rest));
    assert Formatted(preamble + rest) == Formatted(preamble) + Formatted(rest);
  }

  /** A comma in the body becomes two line breaks between the formatted text on either side. */
  lemma FormattedAroundComma(a: string, b: string)
    ensures Formatted(a + "," + b) == Formatted(a) + "\n\n" + Formatted(b)
  {
    StripConcat(a + ",", b);
    StripConcat(a, ",");
    var sa, sb := StripStructural(a), StripStructural(b);
    assert StripStructural(",") == ",";
    ExpandConcat(sa + ",", sb);
    ExpandConcat(sa, ",");
    assert ExpandCommas(",") == "\n\n";
  }

  /**
   When the formatted preamble is one character short of 102 and a comma follows, the cut falls
   between the comma's two line breaks, so the dialog text starts with a lone line break.
   */
  lemma CommaStraddlesCut(preamble: string, rest: string)
    requires |Formatted(preamble)| == PreambleLength - 1
    ensures |Formatted(preamble + "," + rest)| >= PreambleLength
    ensures FallbackMessage(preamble + "," + rest) == "\n" + Formatted(rest)
  {
    FormattedAroundComma(preamble, rest);
    var fp, fr := Formatted(preamble), Formatted(rest);
    assert fp + "\n\n" + fr == (fp + "\n") + ("\n" + fr);
  }
}

=== FILE: registration_request.dfy ===
/**
 The POST request `registerUser` hands to the request queue: a JSON object built from the
 seven sign-up values, sent to the partner's registration endpoint with a JSON content type.
 */
module RegistrationRequest {
  import opened Wrappers

  /** The seven values `registerUser` receives; the default locale is not among them. */
  datatype Registration = Registration(
    name: string,
    surname: string,
    email: string,
    password: string,
    phoneCode: string,
    phoneNumber: string,
    giftCode: string)

  datatype HttpMethod = Post

  datatype Request = Request(
    verb: HttpMethod,
    url: string,
    body: map<string, string>,
    headers: map<string, string>)

  const RegisterUrl := "https://api.plusclouds.com/v2/partners/teknosa/register"
  const ContentType := "application/json; charset=utf-8"

  /** The keys of the JSON object posted to the partner. */
  const PayloadKeys: set<string> :=
    {"name", "surname", "email", "password", "cell_phone_code", "cell_phone_number", "gift_code"}

  /** The JSON object `registerUser` fills with one `put` per value. */
  function Payload(r: Registration): (m: map<string, string>)
    ensures m.Keys == PayloadKeys
    ensures "default_locale" !in m
  {
    map[
      "name" := r.name,
      "surname" := r.surname,
      "email" := r.email,
      "password" := r.password,
      "cell_phone_code" := r.phoneCode,
      "cell_phone_number" := r.phoneNumber,
      "gift_code" := r.giftCode]
  }

  /** Reads a payload back into the registration it carries; `None` unless the keys are exactly the payload keys. */
  function ReadPayload(m: map<string, string>): (r: Option<Registration>)
    ensures r.Some? <==> m.Keys == PayloadKeys
  {
    if m.Keys == PayloadKeys then
      Some(Registration(
        m["name"], m["surname"], m["email"], m["password"],
        m["cell_phone_code"], m["cell_phone_number"], m["gift_code"]))
    else
      None
  }

  /** Every value posted is bound to its own key: the payload decodes to the registration it was built from. */
  lemma PayloadRoundTrip(r: Registration)
    ensures ReadPayload(Payload(r)) == Some(r)
  {
  }

  /** A map that reads back as a registration is exactly that registration's payload. */
  lemma {:induction false} PayloadDetermined(m: map<string, string>, r: Registration)
    requires ReadPayload(m) == Some(r)
    ensures Payload(r) == m
  {
    var p := Payload(r);
    assert p.Keys == m.Keys;
    forall k | k in m
      ensures p[k] == m[k]
    {
      assert k in PayloadKeys;
    }
  }

  /** The request `registerUser` enqueues for a registration. */
  function RegisterUser(r: Registration): (q: Request)
    ensures q.verb == Post && q.url == RegisterUrl
    ensures ReadPayload(q.body) == Some(r)
    ensures q.headers.Keys == {"Content-Type"} && q.headers["Content-Type"] == ContentType
  {
    Request(Post, RegisterUrl, Payload(r), map["Content-Type" := ContentType])
  }
}

=== FILE: response_handling.dfy ===
/**
 The two Volley listeners of the registration request, as the ordered list of visible actions
 each one performs: dismissing the progress dialog, toasts, dialogs and opening the login screen.
 */
module ResponseHandling {
  import opened Text
  import opened ErrorFormat
  import opened ErrorClassification

  datatype UiAction =
    | DismissProgress
    | Toast(text: string)
    | ShowDialog(title: string, message: string)
    | OpenAuthenticator(useProviderAsWebLogin: bool, requestCode: int)

  /** A JSON object as the success listener sees it: each member's `getString` text, and the object's own text. */
  datatype JsonObject = JsonObject(members: map<string, string>, text: string)

  /** The error listener's run: the actions performed, and whether `substring(102)` threw and ended it. */
  datatype HandlerRun = HandlerRun(actions: seq<UiAction>, threw: bool)

  const FirstRunResultCode := 199
  const Registered := "Your Information Registered Successfully"
  const ParsingError := "Parsing error"
  const ErrorTitle := "Following Error(s) Occurred! Please Check and Enter Correct Information"
  const CodeNotFoundMessage := "Böyle bir kod bulunamamıştır. Lütfen kodunuzu kontrol edip tekrar giriniz."
  const CodeUsedMessage :=
    "Bu kod daha önceden kullanılmış. Aynı kod ile tekrar satın alım yapamazsınız. "
    + "Eğer bunun bir hata olduğunu düşünüyorsanız lütfen bizimle iletişime geçiniz.\""
  const EmailTakenMessage :=
    "Bu e-posta adresi ile daha önce hesap yaratılmıştır. \nLütfen başka bir "
    + "e-posta adresi deneyin veya mevcut e-posta adresiniz ile "
    + "\"https://leo.plusclouds.com\" adresini\nziyaret ederek ilgili hesabı "
    + "yine aynı satın alım kodu ile oluşturun."

  /** The login screen, opened for a result with the provider web login switched off. */
  const OpenLogin := OpenAuthenticator(false, FirstRunResultCode)

  /** The error listener's success reaction: dismiss the progress dialog, confirm, open the login screen. */
  const SuccessReaction: seq<UiAction> := [DismissProgress, Toast(Registered), OpenLogin]

  /** The success listener: a `result` member means success and navigation; otherwise `getString` throws. */
  function OnResponse(response: JsonObject): (actions: seq<UiAction>)
    ensures |actions| > 0 && actions[0] == DismissProgress
    ensures OpenLogin in actions <==> "result" in response.members
    ensures "result" !in response.members ==> actions == [DismissProgress, Toast(ParsingError)]
    ensures "result" in response.members ==>
              && |actions| == 6
              && actions[1] == Toast("success: " + response.members["result"])
              && actions[2] == Toast("response true: " + response.text)
              && Toast(ParsingError) !in actions
              && Count(actions, Toast(Registered)) == 2
              && Count(actions, OpenLogin) == 1
              && actions[|actions| - 1] == OpenLogin
              && forall i :: 0 <= i < |actions| ==> !actions[i].ShowDialog?
  {
    if "result" in response.members then
      var success := response.members["result"];
      var confirmations := [Toast(Registered), Toast(Registered), OpenLogin];
      assert Count(confirmations, Toast(Registered)) == 2 && Count(confirmations, OpenLogin) == 1 by {
        forall y | y in {Toast(Registered), OpenLogin}
          ensures Count(confirmations, y) == (if y == OpenLogin then 1 else 2)
        {
          CountCons(OpenLogin, [], y);
          CountCons(Toast(Registered), [OpenLogin], y);
          CountCons(Toast(Registered), [Toast(Registered), OpenLogin], y);
        }
      }
      var reports := [DismissProgress, Toast("success: " + success), Toast("response true: " + response.text)];
      assert Count(reports, Toast(Registered)) == 0 by {
        assert ("success: " + success)[0] != Registered[0];
        assert ("response true: " + response.text)[0] != Registered[0];
        CountCons(Toast("response true: " + response.text), [], Toast(Registered));
        CountCons(Toast("success: " + success), [Toast("response true: " + response.text)], Toast(Registered));
        CountCons(DismissProgress, reports[1..], Toast(Registered));
      }
      assert Toast(ParsingError) !in reports + confirmations by {
        assert ("success: " + success)[0] != ParsingError[0];
        assert ("response true: " + response.text)[0] != ParsingError[0];
        assert Registered[0] != ParsingError[0];
      }
      assert Count(reports, OpenLogin) == 0 by {
        CountZero(reports, OpenLogin);
      }
      CountConcat(reports, confirmations, Toast(Registered));
      CountConcat(reports, confirmations, OpenLogin);
      reports + confirmations
    else
      [DismissProgress, Toast(ParsingError)]
  }

  /** What the if/else-if chain does for each kind of body. */
  function Reaction(kind: ErrorKind, fallback: string): seq<UiAction>
  {
    match kind
    case DisguisedSuccess => SuccessReaction
    case CodeNotFound => [ShowDialog(ErrorTitle, CodeNotFoundMessage)]
    case CodeAlreadyUsed => [ShowDialog(ErrorTitle, CodeUsedMessage)]
    case EmailAlreadyRegistered => [ShowDialog(ErrorTitle, EmailTakenMessage)]
    case Unrecognised => [ShowDialog(ErrorTitle, fallback)]
  }

  /** The dialog text the chain shows for an error kind. */
  function DialogMessage(kind: ErrorKind, fallback: string): string
    requires kind != DisguisedSuccess
  {
    match kind
    case CodeNotFound => CodeNotFoundMessage
    case CodeAlreadyUsed => CodeUsedMessage
    case EmailAlreadyRegistered => EmailTakenMessage
    case Unrecognised => fallback
  }

  /**
   The error listener on a delivered response body: an early `true` check, the fallback text
   computed for every body, then the classification chain.
   */
  function OnErrorResponse(body: string): (run: HandlerRun)
    ensures run.threw <==> |Formatted(body)| < PreambleLength
    ensures |run.actions| >= 1 && (Contains(body, SuccessProbe) ==> |run.actions| >= 4)
    ensures Contains(body, SuccessProbe) ==> run.actions[..3] == SuccessReaction
    ensures !Contains(body, SuccessProbe) ==> OpenLogin !in run.actions
    ensures run.threw ==> run.actions[|run.actions| - 1] == DismissProgress
    ensures run.threw && !Contains(body, SuccessProbe) ==> run.actions == [DismissProgress]
  {
    var early := if Contains(body, SuccessProbe) then SuccessReaction else [];
    var before := early + [DismissProgress];
    if |Formatted(body)| < PreambleLength then
      HandlerRun(before, true)
    else
      HandlerRun(before + Reaction(Classify(body), FallbackMessage(body)), false)
  }

  /**
   A body mentioning `true` that formats to at least 102 characters confirms and opens the login
   screen twice, and shows no dialog.
   */
  lemma DisguisedSuccessRunsTwice(body: string)
    requires Contains(body, SuccessProbe) && |Formatted(body)| >= PreambleLength
    ensures var run := OnErrorResponse(body);
            && !run.threw
            && run.actions == SuccessReaction + [DismissProgress] + SuccessReaction
            && Count(run.actions, OpenLogin) == 2
            && Count(run.actions, Toast(Registered)) == 2
            && forall i :: 0 <= i < |run.actions| ==> !run.actions[i].ShowDialog?
  {
    var run := OnErrorResponse(body);
    assert Classify(body) == DisguisedSuccess;
    assert run.actions == SuccessReaction + ([DismissProgress] + SuccessReaction);
    SuccessReactionCounts();
    CountConcat(SuccessReaction, [DismissProgress] + SuccessReaction, OpenLogin);
    CountConcat([DismissProgress], SuccessReaction, OpenLogin);
    CountConcat(SuccessReaction, [DismissProgress] + SuccessReaction, Toast(Registered));
    CountConcat([DismissProgress], SuccessReaction, Toast(Registered));
  }

  /** Even a successful registration ends in an exception when its body formats to under 102 characters. */
  lemma ShortSuccessOpensLoginThenThrows(body: string)
    requires Contains(body, SuccessProbe) && |Formatted(body)| < PreambleLength
    ensures OnErrorResponse(body) == HandlerRun(SuccessReaction + [DismissProgress], true)
    ensures Count(OnErrorResponse(body).actions, OpenLogin) == 1
  {
    SuccessReactionCounts();
    CountConcat(SuccessReaction, [DismissProgress], OpenLogin);
  }

  lemma SuccessReactionCounts()
    ensures Count(SuccessReaction, OpenLogin) == 1 && Count(SuccessReaction, Toast(Registered)) == 1
  {
    forall y | y in {OpenLogin, Toast(Registered)}
      ensures Count(SuccessReaction, y) == 1
    {
      CountCons(OpenLogin, [], y);
      CountCons(Toast(Registered), [OpenLogin], y);
      CountCons(DismissProgress, [Toast(Registered), OpenLogin], y);
    }
  }

  /**
   A body without `true` never confirms or navigates. If the formatting throws, the dismissal is
   its only action, so a known error is never reported; otherwise it ends in exactly one dialog,
   whose text is the recognised message or the fallback text.
   */
  lemma ErrorBodyShowsOneDialog(body: string)
    requires !Contains(body, SuccessProbe)
    ensures var run := OnErrorResponse(body);
            && OpenLogin !in run.actions
            && forall i :: 0 <= i < |run.actions| ==> !run.actions[i].Toast?
    ensures var run := OnErrorResponse(body);
            run.threw ==> run.actions == [DismissProgress]
    ensures var run := OnErrorResponse(body);
            !run.threw ==>
              && Classify(body) != DisguisedSuccess
              && run.actions == [DismissProgress, run.actions[1]]
              && run.actions[1] == ShowDialog(ErrorTitle, DialogMessage(Classify(body), FallbackMessage(body)))
  {
    var run := OnErrorResponse(body);
    if run.threw {
      assert run.actions == [DismissProgress];
    } else {
      var kind := Classify(body);
      assert kind != DisguisedSuccess by {
        assert !MatchesAt(body, 0);
      }
      var dialog := ShowDialog(ErrorTitle, DialogMessage(kind, FallbackMessage(body)));
      assert Reaction(kind, FallbackMessage(body)) == [dialog];
      assert run.actions == [DismissProgress, dialog];
    }
  }

  /** An unrecognised body's dialog shows the fallback text, which never holds punctuation or commas. */
  lemma UnrecognisedShowsFallback(body: string)
    requires Classify(body) == Unrecognised && |Formatted(body)| >= PreambleLength
    ensures var run := OnErrorResponse(body);
            && run.actions[|run.actions| - 1] == ShowDialog(ErrorTitle, FallbackMessage(body))
            && forall i :: 0 <= i < |FallbackMessage(body)| ==>
                 !IsStructural(FallbackMessage(body)[i]) && FallbackMessage(body)[i] != ','
  {
    assert !MatchesAt(body, 0);
  }
}

=== FILE: signup_form.dfy ===
/**
 The sign-up dialog's OK button: which input fields are marked with an error, with which text,
 and whether the registration is submitted.
 */
module SignUpForm {
  import opened Wrappers
  import opened RegistrationRequest

  /** The seven validated inputs of the dialog. */
  datatype Field = Name | Surname | Email | Password | PhoneCode | PhoneNumber | GiftCode

  /** The dialog's eight text inputs as read on click. */
  datatype Form = Form(
    name: string,
    surname: string,
    email: string,
    password: string,
    phoneCode: string,
    phoneNumber: string,
    defaultLocale: string,
    giftCode: string)

  /** What one click produces: an error text per marked field, and the call to `registerUser`, if any. */
  datatype ClickOutcome = ClickOutcome(errors: map<Field, string>, submitted: Option<Registration>)

  const EnterName := "Please enter your name"
  const EnterSurname := "Please enter your surname"
  const EnterEmail := "Please enter your email"
  const EnterPassword := "Please enter password"
  const PhoneCodeRequired := "Cell Phone Code is required"
  const PhoneNumberRequired := "Cell Phone Number is required"
  const GiftCodeRequired := "Please enter gift code"
  const EnterAreaCode := "Please enter area code"
  const EnterPhoneNumber := "Please enter phone number"
  const EnterGiftCode := "Please enter your gift code"

  /** The seven values the listener checks and passes on; the default locale is read but not among them. */
  function Entered(form: Form): Registration
  {
    Registration(form.name, form.surname, form.email, form.password,
                 form.phoneCode, form.phoneNumber, form.giftCode)
  }

  function Value(v: Registration, f: Field): string
  {
    match f
    case Name => v.name
    case Surname => v.surname
    case Email => v.email
    case Password => v.password
    case PhoneCode => v.phoneCode
    case PhoneNumber => v.phoneNumber
    case GiftCode => v.giftCode
  }

  /** The listener's `length() <= 0`: no trimming, so a field of spaces is not blank. */
  predicate Blank(s: string)
  {
    |s| <= 0
  }

  ghost predicate EveryFieldBlank(v: Registration)
  {
    forall f :: Blank(Value(v, f))
  }

  /** The error text each field gets when every field is blank. */
  function AllBlankMessage(f: Field): string
  {
    match f
    case Name => EnterName
    case Surname => EnterSurname
    case Email => EnterEmail
    case Password => EnterPassword
    case PhoneCode => PhoneCodeRequired
    case PhoneNumber => PhoneNumberRequired
    case GiftCode => GiftCodeRequired
  }

  /** The error text a blank field gets when some other field is filled in. */
  function MissingMessage(f: Field): string
  {
    match f
    case Name => EnterName
    case Surname => EnterSurname
    case Email => EnterEmail
    case Password => EnterPassword
    case PhoneCode => EnterAreaCode
    case PhoneNumber => EnterPhoneNumber
    case GiftCode => EnterGiftCode
  }

  /** The OK button's listener: read the inputs, then decide on the seven values. */
  function OnPositiveClick(form: Form): (o: ClickOutcome)
    ensures forall f :: f in o.errors <==> Blank(Value(Entered(form), f))
    ensures o.submitted.Some? <==> !Blank(form.giftCode)
    ensures o.submitted.Some? ==> o.submitted.value == Entered(form)
  {
    Validate(Entered(form))
  }

  /**
   The listener's decision: an all-blank branch that marks every field, and otherwise one
   independent check per field, where only the gift code decides whether `registerUser` runs.
   */
  function Validate(v: Registration): (o: ClickOutcome)
    ensures forall f :: f in o.errors <==> Blank(Value(v, f))
    ensures EveryFieldBlank(v) ==> forall f :: f in o.errors ==> o.errors[f] == AllBlankMessage(f)
    ensures !EveryFieldBlank(v) ==> forall f :: f in o.errors ==> o.errors[f] == MissingMessage(f)
    ensures o.submitted.Some? <==> !Blank(v.giftCode)
    ensures o.submitted.Some? ==> o.submitted.value == v
  {
    if Blank(v.name) && Blank(v.surname) && Blank(v.email)
      && Blank(v.password) && Blank(v.phoneCode)
      && Blank(v.giftCode) && Blank(v.phoneNumber)
    then
      ClickOutcome(
        map[Name := EnterName, Surname := EnterSurname, Email := EnterEmail, Password := EnterPassword,
            PhoneCode := PhoneCodeRequired, PhoneNumber := PhoneNumberRequired, GiftCode := GiftCodeRequired],
        None)
    else
      assert !EveryFieldBlank(v) by {
        assert !(Blank(Value(v, Name)) && Blank(Value(v, Surname)) && Blank(Value(v, Email))
                 && Blank(Value(v, Password)) && Blank(Value(v, PhoneCode))
                 && Blank(Value(v, GiftCode)) && Blank(Value(v, PhoneNumber)));
      }
      CheckEachField(v)
  }

  /** The order in which the per-field branch checks the inputs. */
  const CheckOrder: seq<Field> := [Name, Surname, Email, Password, PhoneCode, PhoneNumber, GiftCode]

  lemma CheckOrderCoversEveryField(f: Field)
    ensures f in CheckOrder
  {
  }

  /** The per-field branch: every blank field is marked, and a filled gift code submits. */
  function CheckEachField(v: Registration): (o: ClickOutcome)
    ensures forall f :: f in o.errors <==> Blank(Value(v, f))
    ensures forall f :: f in o.errors ==> o.errors[f] == MissingMessage(f)
    ensures o.submitted.Some? <==> !Blank(v.giftCode)
    ensures o.submitted.Some? ==> o.submitted.value == v
  {
    var errors := MarkBlanks(v, CheckOrder, map[]);
    assert forall f :: f in errors <==> Blank(Value(v, f)) by {
      forall f ensures f in CheckOrder {
        CheckOrderCoversEveryField(f);
      }
    }
    if Blank(v.giftCode) then ClickOutcome(errors, None) else ClickOutcome(errors, Some(v))
  }

  /** The `if (...length() <= 0) setError(...)` checks of the per-field branch, one per field in turn. */
  function MarkBlanks(v: Registration, fields: seq<Field>, errors: map<Field, string>): (r: map<Field, string>)
    requires forall f :: f in errors ==> errors[f] == MissingMessage(f)
    ensures forall f :: f in r <==> f in errors || (f in fields && Blank(Value(v, f)))
    ensures forall f :: f in r ==> r[f] == MissingMessage(f)
    decreases |fields|
  {
    if |fields| == 0 then
      errors
    else
      var f := fields[0];
      var marked := if Blank(Value(v, f)) then errors[f := MissingMessage(f)] else errors;
      MarkBlanks(v, fields[1..], marked)
  }

  /** Whatever the other six fields hold, two entries with the same gift code agree on submission. */
  lemma GiftCodeAloneGatesSubmission(a: Registration, b: Registration)
    requires a.giftCode == b.giftCode
    ensures Validate(a).submitted.Some? == Validate(b).submitted.Some?
  {
  }

  /** A submitted form is posted with exactly the seven values typed into it. */
  lemma SubmittedFormIsPosted(form: Form)
    requires !Blank(form.giftCode)
    ensures OnPositiveClick(form).submitted.Some?
    ensures ReadPayload(RegisterUser(OnPositiveClick(form).submitted.value).body) == Some(Entered(form))
  {
  }

  /** The default-locale input never influences the outcome of a click. */
  lemma DefaultLocaleIgnored(form: Form, locale: string)
    ensures OnPositiveClick(form.(defaultLocale := locale)) == OnPositiveClick(form)
  {
    assert Entered(form.(defaultLocale := locale)) == Entered(form);
  }

  /** The two message tables differ exactly on the phone code, phone number and gift code. */
  lemma MessageTablesDiffer(f: Field)
    ensures AllBlankMessage(f) != MissingMessage(f) <==> f in {PhoneCode, PhoneNumber, GiftCode}
  {
  }
}

=== FILE: text.dfy ===
/**
 Sequence helpers shared by the model: Java's `String.contains` and occurrence counting.
 */
module Text {

  /** Java's `String.contains`: `p` occurs somewhere in `s` (the empty string occurs everywhere). */
  predicate Contains<T(==)>(s: seq<T>, p: seq<T>)
    decreases |s|
  {
    p <= s || (|s| > 0 && Contains(s[1..], p))
  }

  /** Number of occurrences of `x` in `s`. */
  function Count<T(==)>(s: seq<T>, x: T): nat
  {
    if |s| == 0 then 0 else (if s[0] == x then 1 else 0) + Count(s[1..], x)
  }

  /** An occurrence in a prefix is an occurrence in the whole string. */
  lemma {:induction false} ContainsInLeft<T>(a: seq<T>, b: seq<T>, p: seq<T>)
    requires Contains(a, p)
    ensures Contains(a + b, p)
    decreases |a|
  {
    if !(p <= a) {
      assert (a + b)[1..] == a[1..] + b;
      ContainsInLeft(a[1..], b, p);
    }
  }

  /** An occurrence in a suffix is an occurrence in the whole string. */
  lemma {:induction false} ContainsInRight<T>(a: seq<T>, b: seq<T>, p: seq<T>)
    requires Contains(b, p)
    ensures Contains(a + b, p)
    decreases |a|
  {
    if |a| == 0 {
      assert a + b == b;
    } else {
      assert (a + b)[1..] == a[1..] + b;
      ContainsInRight(a[1..], b, p);
    }
  }

  /** Every element of an occurring pattern is an element of the string it occurs in. */
  lemma {:induction false} ContainsElement<T>(s: seq<T>, p: seq<T>, x: T)
    requires Contains(s, p) && x in p
    ensures x in s
    decreases |s|
  {
    if p <= s {
      var k :| 0 <= k < |p| && p[k] == x;
      assert s[k] == x;
    } else {
      ContainsElement(s[1..], p, x);
      assert s == [s[0]] + s[1..];
    }
  }

  /** Counting is additive over concatenation. */
  lemma {:induction false} CountConcat<T>(a: seq<T>, b: seq<T>, x: T)
    ensures Count(a + b, x) == Count(a, x) + Count(b, x)
    decreases |a|
  {
    if |a| == 0 {
      assert a + b == b;
    } else {
      assert (a + b)[1..] == a[1..] + b;
      CountConcat(a[1..], b, x);
    }
  }

  /** Counting the first element separately. */
  lemma CountCons<T>(x: T, s: seq<T>, y: T)
    ensures Count([x] + s, y) == (if x == y then 1 else 0) + Count(s, y)
  {
    assert ([x] + s)[1..] == s;
  }

  /** An element counted zero times does not occur. */
  lemma {:induction false} CountZero<T>(s: seq<T>, x: T)
    ensures Count(s, x) == 0 <==> x !in s
    decreases |s|
  {
    if |s| > 0 {
      CountZero(s[1..], x);
      assert s == [s[0]] + s[1..];
    }
  }
}

=== FILE: wrappers.dfy ===
/** The optional value used where the Java code either does something or does not. */
module Wrappers {

  datatype Option<+T> = None | Some(value: T)
}
